=== FILE: README.md ===
# Anonymous relay command — a Dafny model

This project models the `anon` service of a Matrix chat bot. The service is a
command handler that relays a user's message anonymously into one of the rooms
the bot has joined, and it allows at most one request per user per minute.

- `!anon rooms` lists the joined rooms with 0-based indices.
- `!anon <index> <words...>` first checks the argument count, then the user's
  cooldown. It then records the attempt and checks the index. Last, it sends
  the words, under a fixed lead-in line, as a notice to the chosen room.

The handler is a sequential state machine. Its state (`Anon.State`) is the
room registry (`joinedRooms`) and the cooldown table (`lastMessage`, from user
id to the time of the user's last admitted request). `Anon.Step` is one call
of `parse`. It takes the state, the user, the arguments, the clock reading
`now` and the result the outbound send would have. It returns the reply, the
notice it sends (at most one) and the next state. Replies are a datatype with
one constructor per reply constructor of the source. `Anon.Text` renders each
reply with the source's literal text.

Modules:

- `Anon` (anon.dfy): the state, the replies, `Step`, `JoinWithIndex`,
  `RoomsText` (the text of `rooms()`) and the `cooldown` constant.
- `AnonProperties` (anon_properties.dfy): properties that relate the parts.
  The listing is read back line by line. An index read off the listing is fed
  back to the relay command. The ignored parse error is characterised. The
  relayed words are read back from the notice. Worked scenarios close it.
- `AnonTrace` (anon_trace.dfy): runs of many requests, and the rate limit
  they obey.
- `Strconv` (strconv.dfy): Go's `strconv.Atoi` on a 64-bit platform. Both its
  fast path and its `ParseInt` path are modelled, including the early range
  error on overflow.
- `Decimal` (decimal.dfy): decimal numerals. `NatToString` is Go's `%d` of a
  natural number. `IsNumeral` and `NumeralValue` read an optionally signed
  numeral the textbook way. They are the reference that `Strconv.AtoiNumeral`
  checks `Atoi` against.
- `Strings` (strings.dfy): Go's `strings.Join`, and `Split` on one character
  as its inverse.
- `Wrappers` (wrappers.dfy): `Option`.

Time is an integer count of nanoseconds, Go's `time.Duration` unit, so
`Anon.Cooldown` is 60 * 10^9. A request is rejected while
`last[user] + Cooldown > now`, which is strict. So a request at exactly one
cooldown after the last admitted one passes.

The parse error of `strconv.Atoi` at `anon.go:64` is never read, because `err`
is overwritten at line 71. So the model relays on the integer `Atoi` returns
whatever the input was. A syntax error gives 0. A non-numeral index therefore
relays to room 0 whenever rooms are registered. An out-of-range index gets the
listing, but a non-numeral one does not: it reads as 0.
`AnonProperties.NonNumeralIndex` and `AnonProperties.ScenarioNonNumeralIndex`
state this behaviour.

One Go detail follows from modelling `Atoi` exactly. An input of 19 or more
characters whose leading digits exceed 18446744073709551615, the unsigned
64-bit maximum, before a stray character, such as `99999999999999999999x`, is
read as `MaxInt64`, or `MinInt64` after a leading `-`, and not as 0
(`Strconv.AtoiOverflowBeforeStrayCharacter`,
`Strconv.AtoiNegativeOverflowBeforeStrayCharacter`). Such an index never
selects a room, so it gets the listing. Leading digits that exceed `MaxInt64`
but not the unsigned maximum, as in `9999999999999999999x`, still reach the
stray character, and the input is read as 0
(`Strconv.AtoiStrayCharacterBeforeOverflow`), so it relays to room 0.

## Model

| member | source | states |
|---|---|---|
| Anon.Step | src/github.com/Kona-chan/go-neb-services/anon/anon.go:52-78 | The checks run in a fixed order. Fewer than two arguments: usage, no change, no send. Otherwise cooldown rejection exactly when the user's last admitted time plus one minute is after `now` (strict), with no change and no send. An admitted request sets the user's entry to `now` and leaves every other entry and the registry alone. A notice is sent exactly when the parsed index is within the registry. It goes to that room and carries the lead-in, a newline and the words after the index joined by single spaces. An index outside the registry gets the room listing. A sent notice gets the accepted reply when the send succeeds, and the delivery-failed reply with the room and the error text when it fails. |
| Anon.JoinWithIndex | src/github.com/Kona-chan/go-neb-services/anon/anon.go:102-108 | The numbered listing is empty exactly when the registry is empty. |
| AnonProperties.JoinWithIndexLines | src/github.com/Kona-chan/go-neb-services/anon/anon.go:80-83 | An empty registry gives the empty string. Otherwise the listing splits at newlines into exactly one line per room, with no trailing newline, and line k is the decimal k, ". " and room k. |
| AnonProperties.ListedIndexSelectsRoom | src/github.com/Kona-chan/go-neb-services/anon/anon.go:64-72 | Relaying with the index the listing prints for room k sends to room k. |
| AnonProperties.NonNumeralIndex | src/github.com/Kona-chan/go-neb-services/anon/anon.go:64-71 | The parse error is ignored. A non-numeral index shorter than 19 characters behaves exactly like "0". A longer one behaves like "0", or like "-1" when its leading digits exceed the unsigned 64-bit maximum before a stray character. |
| AnonProperties.NonNumeralIndexSendsToFirstRoom | src/github.com/Kona-chan/go-neb-services/anon/anon.go:64-72 | An admitted request with a short non-numeral index sends to room 0 whenever rooms are registered. |
| AnonProperties.DeliveryAffectsReplyOnly | src/github.com/Kona-chan/go-neb-services/anon/anon.go:71-77 | The send's outcome does not change what was sent or the next state. It changes the reply only, and only when a notice was sent. |
| AnonProperties.BodyCarriesWords | src/github.com/Kona-chan/go-neb-services/anon/anon.go:70-72 | The notice begins with the lead-in line. Splitting the rest at spaces gives back the relayed words, when no word holds a space. |
| AnonProperties.DeliveryFailedTextDeterminesRoomAndError | src/github.com/Kona-chan/go-neb-services/anon/anon.go:93-96 | Two delivery-failed texts are equal only when they name the same room and the same error text, so both can be read back from the reply, when room ids hold no space. |
| AnonProperties.ScenarioRelayThenTooSoon | src/github.com/Kona-chan/go-neb-services/anon/anon.go:57-77 | Relaying "hello world" to index 1 of two rooms sends to the second room and is accepted. A second request one second later, or one nanosecond short of the cooldown, is rejected. One at exactly the cooldown is relayed. |
| AnonProperties.ScenarioIndexOutOfRange | src/github.com/Kona-chan/go-neb-services/anon/anon.go:62-67 | Index 5 of two rooms gets the listing and still records the attempt. |
| AnonProperties.ScenarioUsage | src/github.com/Kona-chan/go-neb-services/anon/anon.go:53-55 | Zero or one argument gets the usage reply and changes nothing. |
| AnonProperties.ScenarioNonNumeralIndex | src/github.com/Kona-chan/go-neb-services/anon/anon.go:64-75 | Index "abc" relays to room 0. A failed send then reports that room and the error text. |
| AnonTrace.States | src/github.com/Kona-chan/go-neb-services/anon/anon.go:23-24 | Over a run of requests each state is the step of the previous one, and no request changes the room registry. |
| AnonTrace.EntryKeepsAdmittedTime | src/github.com/Kona-chan/go-neb-services/anon/anon.go:57-62 | After an admitted request, its user's entry stays present and never drops below that request's time. |
| AnonTrace.CooldownSeparatesAdmitted | src/github.com/Kona-chan/go-neb-services/anon/anon.go:21 | In any run, two admitted requests of one user are at least one minute apart. This holds whatever order the clock readings come in. |
| AnonTrace.TooSoonIsRejected | src/github.com/Kona-chan/go-neb-services/anon/anon.go:57-61 | In any run, a later request of the same user, with an index and a message, sent less than a minute after an admitted one is rejected. It sends nothing and leaves the state as it was. |
| Strconv.Atoi | src/github.com/Kona-chan/go-neb-services/anon/anon.go:64 | The parsed index is always a 64-bit integer. |
| Strconv.AtoiNumeral | src/github.com/Kona-chan/go-neb-services/anon/anon.go:64 | An optional sign followed by one or more ASCII digits is read as its value, clamped to the 64-bit range. |
| Strconv.AtoiNonNumeral | src/github.com/Kona-chan/go-neb-services/anon/anon.go:64 | Anything else is read as 0 when shorter than 19 characters. In all cases it is read as 0 or a 64-bit bound. |
| Strconv.AtoiOverflowBeforeStrayCharacter | src/github.com/Kona-chan/go-neb-services/anon/anon.go:64 | Twenty nines followed by a letter are read as `MaxInt64`, not 0. |
| Strconv.AtoiNegativeOverflowBeforeStrayCharacter | src/github.com/Kona-chan/go-neb-services/anon/anon.go:64 | A `-`, twenty nines and a letter are read as `MinInt64`, not 0. |
| Strconv.AtoiStrayCharacterBeforeOverflow | src/github.com/Kona-chan/go-neb-services/anon/anon.go:64 | Nineteen nines followed by a letter exceed `MaxInt64` but not the unsigned maximum, so the input is read as 0. |
| Strconv.AtoiIntToString | src/github.com/Kona-chan/go-neb-services/anon/anon.go:64 | `Atoi` inverts the decimal rendering of every 64-bit integer. |
| Decimal.NatToString | src/github.com/Kona-chan/go-neb-services/anon/anon.go:105 | The `%d` rendering of k is a non-empty digit string without leading zeros, and it denotes k. |
| Strings.Join | src/github.com/Kona-chan/go-neb-services/anon/anon.go:107 | Joining no parts gives the empty string. Otherwise the result starts with the first part, and its length is the parts' total plus one separator between each pair of neighbours. |
| Strings.SplitJoin | src/github.com/Kona-chan/go-neb-services/anon/anon.go:70 | Splitting a join at a separator character that no part contains gives back the parts. |

## Left out

- `Register` (anon.go:43-50) is not modelled. It asks the server for the joined rooms over the network. The registry is part of the state instead, and `Step` never changes it.
- `Commands` and `init` (anon.go:26-41, 110-116) are not modelled. They are host dispatch and registration glue. The `!anon rooms` command returns the listing reply, whose text is `Anon.RoomsText` of the registry.
- `client.SendNotice` is a network call. Its result is the `delivery` parameter of `Step`, which is `Ok` or `Err` with the error's text (`err.Error()`).
- The two `time.Now()` calls in `parse` are one parameter `now`. The time stored can therefore not differ from the time checked.
- The package-level variables have no locking in the source. The model treats calls as strictly sequential and does not model races.
- `gomatrix.TextMessage` and its `m.notice` message type are not modelled. A reply is a datatype constructor plus its text.
- The error result of `strconv.Atoi` is not modelled, because the handler discards it.
- Go strings are byte sequences and Dafny strings are character sequences. Lengths differ only for non-ASCII input, and that only moves an input between `Atoi`'s two paths. Any non-ASCII character is a stray character, and the slow path reaches a range error only after 20 digits. So such an input is read as 0 on either path. The model counts characters.
- 32-bit platforms are not modelled. `int` is taken to be 64 bits wide.
- AnonProperties.JoinWithIndexLines: requires that no room id holds a newline. A Matrix room id does not hold one. Without that requirement the lines cannot be told apart.
- AnonProperties.BodyCarriesWords: requires that no word holds a space, because a word containing a space cannot be recovered by splitting at spaces.
- AnonProperties.DeliveryFailedTextDeterminesRoomAndError: requires that the room ids hold no space. A Matrix room id holds none. Without that requirement, a space inside the room id cannot be told apart from the one after the colon.
- AnonProperties.NonNumeralIndex: for long inputs it states a disjunction and does not say which inputs exceed the unsigned 64-bit maximum before a stray character. `Strconv.AtoiOverflowBeforeStrayCharacter` shows that the second case happens.
- Strconv.AtoiNonNumeral: states that the result is 0 or a 64-bit bound. It does not state exactly which long inputs reach the bound.

=== FILE: anon.dfy ===
/**
 * The anonymous-relay command of the `anon` bot service.
 *
 * `!anon <index> <words...>` relays the words, under a fixed lead-in, into the
 * room at that index of the rooms the bot has joined, at most once a minute
 * per user; `!anon rooms` lists those rooms with their indices. The handler
 * is a sequential state machine: its state is the room registry and the
 * per-user time of the last admitted request, and one request yields a reply,
 * at most one outbound notice, and the next state. The clock and the outcome
 * of the outbound send are parameters.
 */
module Anon {
  import opened Wrappers
  import opened Decimal
  import Strings
  import Strconv

  /** Timestamps and durations are Go `time.Duration` units: nanoseconds. */
  const Second: int := 1_000_000_000
  /** The minimum time between two admitted requests of one user. */
  const Cooldown: int := 60 * Second

  const UsageText := "Доступные команды:\n!anon rooms\n!anon room_index message"
  const CooldownText := "Слишком много записок, умерьте пыл."
  const ListingHeader := "Комнаты, в которые я могу передавать записки:"
  const DeliveryFailedLead := "Не удалось доставить записку в "
  const AcceptedText := "Принято."
  /** The phrase every relayed message is introduced with. */
  const LeadIn := "Просят передать записку следующего содержания:"

  /** What the outbound `SendNotice` call reported: success, or an error's text. */
  datatype SendResult = Ok | Err(msg: string)

  /** One outbound notice: the target room and the text posted there. */
  datatype Notice = Notice(room: string, body: string)

  /** The five replies a request can get; `Text` gives the notice shown to the user. */
  datatype Reply =
    | Usage
    | CooldownRejected
    | Listing(rooms: seq<string>)
    | DeliveryFailed(room: string, error: string)
    | Accepted

  /** The room registry and the cooldown table. */
  datatype State = State(rooms: seq<string>, last: map<string, int>)

  /** Everything one request produces. */
  datatype Outcome = Outcome(reply: Reply, sent: Option<Notice>, state: State)

  /** The user's last admitted request is less than a cooldown before now. */
  predicate Cooling(last: map<string, int>, user: string, now: int) {
    user in last && last[user] + Cooldown > now
  }

  /** The request names an index and a message and its user is not cooling down. */
  predicate Admitted(s: State, user: string, args: seq<string>, now: int) {
    |args| >= 2 && !Cooling(s.last, user, now)
  }

  /** The listing line of the room at index k. */
  function IndexedLine(k: nat, room: string): string {
    NatToString(k) + ". " + room
  }

  function IndexedLines(ss: seq<string>): seq<string> {
    seq(|ss|, k requires 0 <= k < |ss| => IndexedLine(k, ss[k]))
  }

  /** The numbered room lines, one per room, separated by newlines. */
  function JoinWithIndex(ss: seq<string>): (r: string)
    ensures r == "" <==> |ss| == 0
  {
    var lines := IndexedLines(ss);
    var r := Strings.Join(lines, "\n");
    assert |ss| > 0 ==> r[..|lines[0]|] == lines[0];
    r
  }

  /** The text of the room listing: a header line, then the numbered rooms. */
  function RoomsText(ss: seq<string>): string {
    ListingHeader + "\n" + JoinWithIndex(ss)
  }

  /** The text of the notice that carries a relayed message. */
  function Body(words: seq<string>): string {
    LeadIn + "\n" + Strings.Join(words, " ")
  }

  /** The notice text shown to the requesting user. */
  function Text(r: Reply): string {
    match r
    case Usage => UsageText
    case CooldownRejected => CooldownText
    case Listing(rooms) => RoomsText(rooms)
    case DeliveryFailed(room, error) => DeliveryFailedLead + room + ": " + error
    case Accepted => AcceptedText
  }

  /**
   * One relay request from user with arguments args at time now. The checks
   * run in a fixed order: argument count, cooldown, then (after the attempt is
   * recorded) the room index, then the send, whose outcome is delivery.
   */
  function Step(s: State, user: string, args: seq<string>, now: int, delivery: SendResult): (o: Outcome)
    // the registry is read, never written
    ensures o.state.rooms == s.rooms
    // fewer than two arguments: usage, before any cooldown logic
    ensures |args| < 2 ==> o.reply == Usage && o.sent == None && o.state == s
    // cooldown rejection, exactly when the last admitted request is too recent
    ensures o.reply == CooldownRejected <==> |args| >= 2 && Cooling(s.last, user, now)
    ensures o.reply == CooldownRejected ==> o.sent == None && o.state == s
    // an admitted request is recorded whatever follows; nobody else's entry moves
    ensures Admitted(s, user, args, now) ==> o.state.last == s.last[user := now]
    // exactly one notice, exactly when the index selects a room
    ensures o.sent.Some? <==> Admitted(s, user, args, now) && 0 <= Strconv.Atoi(args[0]) < |s.rooms|
    ensures o.sent.Some? ==> o.sent.value == Notice(s.rooms[Strconv.Atoi(args[0])], Body(args[1..]))
    // an index outside the registry gets the listing
    ensures Admitted(s, user, args, now) && !(0 <= Strconv.Atoi(args[0]) < |s.rooms|)
            ==> o.reply == Listing(s.rooms)
    // after a send, the reply reports the send's outcome
    ensures o.sent.Some? && delivery.Ok? ==> o.reply == Accepted
    ensures o.sent.Some? && delivery.Err? ==> o.reply == DeliveryFailed(o.sent.value.room, delivery.msg)
  {
    if |args| < 2 then
      Outcome(Usage, None, s)
    else if Cooling(s.last, user, now) then
      Outcome(CooldownRejected, None, s)
    else
      var next := s.(last := s.last[user := now]);
      var i := Strconv.Atoi(args[0]);
      if !(0 <= i < |s.rooms|) then
        Outcome(Listing(next.rooms), None, next)
      else
        var notice := Notice(s.rooms[i], Body(args[1..]));
        match delivery
        case Ok => Outcome(Accepted, Some(notice), next)
        case Err(msg) => Outcome(DeliveryFailed(notice.room, msg), Some(notice), next)
  }
}

=== FILE: anon_properties.dfy ===
/**
 * Properties of the relay command that relate its parts to each other: the
 * listing read back line by line, the listed index fed back to the relay
 * command, the ignored parse error, the relayed words read back from the
 * notice, and worked scenarios.
 */
module AnonProperties {
  import opened Wrappers
  import opened Decimal
  import Strings
  import Strconv
  import opened Anon

  /**
   * The numbered room lines: none for an empty registry; otherwise one line
   * per room, line k reading "k. " and the room, separated by newlines with
   * none after the last. Splitting at newlines gives exactly these lines when
   * no room id holds a newline.
   */
  lemma JoinWithIndexLines(rooms: seq<string>)
    requires forall k :: 0 <= k < |rooms| ==> '\n' !in rooms[k]
    ensures |rooms| == 0 ==> JoinWithIndex(rooms) == ""
    ensures |rooms| > 0 ==>
      var lines := Strings.Split(JoinWithIndex(rooms), '\n');
      && |lines| == |rooms|
      && forall k :: 0 <= k < |rooms| ==> lines[k] == NatToString(k) + ". " + rooms[k]
  {
    if |rooms| > 0 {
      var lines := IndexedLines(rooms);
      forall k | 0 <= k < |lines|
        ensures '\n' !in lines[k]
      {
        assert lines[k] == NatToString(k) + ". " + rooms[k];
        assert forall j :: 0 <= j < |NatToString(k)| ==> IsDigit(NatToString(k)[j]);
      }
      Strings.SplitJoin(lines, '\n');
    }
  }

  /**
   * An index read off the listing selects the room listed under it: relaying
   * with the decimal index k of a room sends to that room.
   */
  lemma ListedIndexSelectsRoom(s: State, user: string, k: nat, words: seq<string>, now: int, delivery: SendResult)
    requires k < |s.rooms| <= Strconv.MaxInt64
    requires |words| >= 1 && !Cooling(s.last, user, now)
    ensures Step(s, user, [NatToString(k)] + words, now, delivery).sent == Some(Notice(s.rooms[k], Body(words)))
  {
    Strconv.AtoiIntToString(k);
    assert ([NatToString(k)] + words)[1..] == words;
  }

  /**
   * The parse error is ignored. A non-numeral index shorter than 19 characters
   * acts exactly as "0". A longer one acts as "0" too unless its leading digits
   * exceed the unsigned 64-bit maximum before a stray character; it then acts
   * as "-1", which never selects a room.
   */
  lemma NonNumeralIndex(s: State, user: string, args: seq<string>, now: int, delivery: SendResult)
    requires |args| >= 2 && !IsNumeral(args[0])
    requires |s.rooms| <= Strconv.MaxInt64
    ensures |args[0]| < 19 ==> Step(s, user, args, now, delivery) == Step(s, user, ["0"] + args[1..], now, delivery)
    ensures || Step(s, user, args, now, delivery) == Step(s, user, ["0"] + args[1..], now, delivery)
            || Step(s, user, args, now, delivery) == Step(s, user, ["-1"] + args[1..], now, delivery)
  {
    Strconv.AtoiNonNumeral(args[0]);
    Strconv.AtoiIntToString(0);
    Strconv.AtoiIntToString(-1);
    assert (["0"] + args[1..])[1..] == args[1..];
    assert (["-1"] + args[1..])[1..] == args[1..];
  }

  /** With rooms registered, an admitted request with a short non-numeral index goes to room 0. */
  lemma NonNumeralIndexSendsToFirstRoom(s: State, user: string, args: seq<string>, now: int, delivery: SendResult)
    requires Admitted(s, user, args, now) && |s.rooms| >= 1
    requires !IsNumeral(args[0]) && |args[0]| < 19
    ensures Step(s, user, args, now, delivery).sent == Some(Notice(s.rooms[0], Body(args[1..])))
  {
  }

  /** The send's outcome changes the reply only: what was sent and the next state do not depend on it. */
  lemma DeliveryAffectsReplyOnly(s: State, user: string, args: seq<string>, now: int, d1: SendResult, d2: SendResult)
    ensures Step(s, user, args, now, d1).sent == Step(s, user, args, now, d2).sent
    ensures Step(s, user, args, now, d1).state == Step(s, user, args, now, d2).state
    ensures Step(s, user, args, now, d1).sent.None? ==> Step(s, user, args, now, d1) == Step(s, user, args, now, d2)
  {
  }

  /**
   * The relayed words can be read back from the notice: after the lead-in
   * line, splitting at spaces gives the words when none of them holds a space.
   */
  lemma BodyCarriesWords(words: seq<string>)
    requires |words| >= 1
    requires forall k :: 0 <= k < |words| ==> ' ' !in words[k]
    ensures Body(words)[..|LeadIn| + 1] == LeadIn + "\n"
    ensures Strings.Split(Body(words)[|LeadIn| + 1..], ' ') == words
  {
    assert Body(words)[|LeadIn| + 1..] == Strings.Join(words, " ");
    Strings.SplitJoin(words, ' ');
  }

  /**
   * The delivery-failed reply determines the target room and the error's
   * text: a reader finds the room as everything up to the first space after
   * the fixed lead, less the colon, and the error as the rest.
   */
  lemma DeliveryFailedTextDeterminesRoomAndError(r1: string, e1: string, r2: string, e2: string)
    requires ' ' !in r1 && ' ' !in r2
    requires Text(DeliveryFailed(r1, e1)) == Text(DeliveryFailed(r2, e2))
    ensures r1 == r2 && e1 == e2
  {
    var n := |DeliveryFailedLead|;
    var t := Text(DeliveryFailed(r1, e1));
    assert t[n..] == (r1 + ":") + [' '] + e1;
    assert t[n..] == (r2 + ":") + [' '] + e2;
    Strings.IndexOfFirst(r1 + ":", ' ', e1);
    Strings.IndexOfFirst(r2 + ":", ' ', e2);
    assert |r1| == |r2|;
    assert r1 == t[n..][..|r1|];
    assert r2 == t[n..][..|r2|];
    assert e1 == t[n..][|r1| + 2..];
    assert e2 == t[n..][|r2| + 2..];
  }

  const RoomA := "!a:x"
  const RoomB := "!b:x"
  const Alice := "@alice:x"

  /** A relay to index 1 of a two-room registry, then a second request too soon. */
  lemma ScenarioRelayThenTooSoon()
    ensures var s := State([RoomA, RoomB], map[]);
      var o := Step(s, Alice, ["1", "hello", "world"], 0, Ok);
      && o.reply == Accepted
      && o.sent == Some(Notice(RoomB, LeadIn + "\n" + "hello world"))
      && o.state == State([RoomA, RoomB], map[Alice := 0])
      && Step(o.state, Alice, ["0", "again"], Second, Ok) == Outcome(CooldownRejected, None, o.state)
      && Step(o.state, Alice, ["0", "again"], Cooldown - 1, Ok).reply == CooldownRejected
      && Step(o.state, Alice, ["0", "again"], Cooldown, Ok).sent == Some(Notice(RoomA, LeadIn + "\n" + "again"))
  {
    var s := State([RoomA, RoomB], map[]);
    Strconv.AtoiIntToString(0);
    Strconv.AtoiIntToString(1);
    assert IntToString(1) == "1";
    assert IntToString(0) == "0";
    assert ["1", "hello", "world"][1..] == ["hello", "world"];
    assert ["hello", "world"][1..] == ["world"];
    assert Strings.Join(["hello", "world"], " ") == "hello world";
    assert ["0", "again"][1..] == ["again"];
  }

  /** An index past the registry gets the listing and still uses up the cooldown. */
  lemma ScenarioIndexOutOfRange()
    ensures var s := State([RoomA, RoomB], map[]);
      Step(s, Alice, ["5", "oops"], 0, Ok) == Outcome(Listing([RoomA, RoomB]), None, s.(last := map[Alice := 0]))
  {
  }

  /** A bare command gets the usage text. */
  lemma ScenarioUsage()
    ensures Step(State([RoomA, RoomB], map[]), Alice, [], 0, Ok) == Outcome(Usage, None, State([RoomA, RoomB], map[]))
    ensures Step(State([RoomA, RoomB], map[]), Alice, ["1"], 0, Ok) == Outcome(Usage, None, State([RoomA, RoomB], map[]))
  {
  }

  /** A non-numeral index relays to room 0 rather than listing the rooms. */
  lemma ScenarioNonNumeralIndex()
    ensures Step(State([RoomA, RoomB], map[]), Alice, ["abc", "hi"], 0, Err("timeout"))
            == Outcome(DeliveryFailed(RoomA, "timeout"), Some(Notice(RoomA, LeadIn + "\n" + "hi")),
                       State([RoomA, RoomB], map[Alice := 0]))
  {
  }
}

=== FILE: anon_trace.dfy ===
/**
 * Runs of the relay command: requests handled one after another, each on the
 * state the previous one left. The guarantee the cooldown exists for holds of
 * every run, whatever the clock does: two admitted requests of one user are at
 * least a cooldown apart, and a second request inside the window is rejected.
 */
module AnonTrace {
  import opened Anon

  /** One request: who sent it, its arguments, the time, and how its send would go. */
  datatype Call = Call(user: string, args: seq<string>, now: int, delivery: SendResult)

  function Apply(s: State, c: Call): Outcome {
    Step(s, c.user, c.args, c.now, c.delivery)
  }

  /** The state before each request of the run, and after the last one. */
  function States(s: State, calls: seq<Call>): (ss: seq<State>)
    ensures |ss| == |calls| + 1 && ss[0] == s
    ensures forall i :: 0 <= i < |calls| ==> ss[i + 1] == Apply(ss[i], calls[i]).state
    ensures forall i :: 0 <= i < |ss| ==> ss[i].rooms == s.rooms
    decreases |calls|
  {
    if |calls| == 0 then
      [s]
    else
      var rest := States(Apply(s, calls[0]).state, calls[1..]);
      assert forall i :: 1 <= i < |calls| ==> calls[1..][i - 1] == calls[i];
      [s] + rest
  }

  /** The request was admitted: it passed the argument count and the cooldown. */
  predicate AdmittedAt(s: State, calls: seq<Call>, i: int)
    requires 0 <= i < |calls|
  {
    var ss := States(s, calls);
    Admitted(ss[i], calls[i].user, calls[i].args, calls[i].now)
  }

  /** After an admitted request, its user's entry stays at or after its time. */
  lemma {:induction false} EntryKeepsAdmittedTime(s: State, calls: seq<Call>, i: int, k: int)
    requires 0 <= i < k <= |calls|
    requires AdmittedAt(s, calls, i)
    ensures var ss := States(s, calls);
      calls[i].user in ss[k].last && ss[k].last[calls[i].user] >= calls[i].now
  {
    var ss := States(s, calls);
    if k > i + 1 {
      EntryKeepsAdmittedTime(s, calls, i, k - 1);
    }
  }

  /** Two admitted requests of one user are at least a cooldown apart. */
  lemma CooldownSeparatesAdmitted(s: State, calls: seq<Call>, i: int, j: int)
    requires 0 <= i < j < |calls| && calls[i].user == calls[j].user
    requires AdmittedAt(s, calls, i) && AdmittedAt(s, calls, j)
    ensures calls[j].now >= calls[i].now + Cooldown
  {
    EntryKeepsAdmittedTime(s, calls, i, j);
  }

  /** A later request of the same user inside the window is rejected and changes nothing. */
  lemma TooSoonIsRejected(s: State, calls: seq<Call>, i: int, j: int)
    requires 0 <= i < j < |calls| && calls[i].user == calls[j].user
    requires AdmittedAt(s, calls, i)
    requires |calls[j].args| >= 2 && calls[j].now < calls[i].now + Cooldown
    ensures var ss := States(s, calls);
      && Apply(ss[j], calls[j]).reply == CooldownRejected
      && Apply(ss[j], calls[j]).sent.None?
      && ss[j + 1] == ss[j]
  {
    EntryKeepsAdmittedTime(s, calls, i, j);
  }
}

=== FILE: decimal.dfy ===
/**
 * Decimal numerals over ASCII digits: the `%d` rendering of a natural number,
 * the rendering of a signed integer, and the textbook reading of an
 * optionally signed numeral that both are checked against.
 */
module Decimal {

  predicate IsDigit(c: char) {
    '0' <= c <= '9'
  }

  predicate AllDigits(s: string) {
    forall i :: 0 <= i < |s| ==> IsDigit(s[i])
  }

  function DigitValue(c: char): (d: nat)
    requires IsDigit(c)
    ensures d < 10
  {
    (c as int) - ('0' as int)
  }

  function DigitChar(d: nat): (c: char)
    requires d < 10
    ensures IsDigit(c) && DigitValue(c) == d
  {
    ((('0' as int) + d) as char)
  }

  function Pow10(k: nat): (p: nat)
    ensures p >= 1
  {
    if k == 0 then 1 else 10 * Pow10(k - 1)
  }

  /** The value of a digit string read most significant digit first. */
  function DigitsValue(s: string): nat
    requires AllDigits(s)
  {
    if |s| == 0 then 0 else DigitsValue(s[..|s| - 1]) * 10 + DigitValue(s[|s| - 1])
  }

  lemma {:induction false} Pow10Monotone(j: nat, k: nat)
    requires j <= k
    ensures Pow10(j) <= Pow10(k)
  {
    if j < k {
      Pow10Monotone(j, k - 1);
    }
  }

  lemma Pow10Of18()
    ensures Pow10(18) == 1_000_000_000_000_000_000
  {
    assert Pow10(6) == 1_000_000;
    assert Pow10(12) == 1_000_000_000_000;
  }

  /** A string of k digits denotes a value below 10^k. */
  lemma {:induction false} DigitsValueBound(s: string)
    requires AllDigits(s)
    ensures DigitsValue(s) < Pow10(|s|)
  {
    if |s| > 0 {
      DigitsValueBound(s[..|s| - 1]);
    }
  }

  /** A numeral is at least its leading digit times the place value of that digit. */
  lemma {:induction false} DigitsValueLead(s: string)
    requires AllDigits(s) && |s| >= 1
    ensures DigitsValue(s) >= DigitValue(s[0]) * Pow10(|s| - 1)
  {
    if |s| == 1 {
      assert s[..0] == "";
    } else {
      var p := s[..|s| - 1];
      DigitsValueLead(p);
      assert p[0] == s[0];
      var d := DigitValue(s[0]);
      calc {
        DigitsValue(s);
      >= DigitsValue(p) * 10;
      >= d * Pow10(|p| - 1) * 10;
      == d * Pow10(|s| - 1);
      }
    }
  }

  /** Reading more digits never makes the value smaller. */
  lemma {:induction false} DigitsValuePrefix(s: string, k: nat)
    requires AllDigits(s) && k <= |s|
    ensures DigitsValue(s[..k]) <= DigitsValue(s)
    decreases |s| - k
  {
    if k < |s| {
      DigitsValuePrefix(s, k + 1);
      assert s[..k + 1][..k] == s[..k];
    } else {
      assert s[..k] == s;
    }
  }

  /** The shortest decimal numeral of n, as Go's `%d` verb prints it. */
  function NatToString(n: nat): (s: string)
    ensures |s| >= 1 && AllDigits(s)
    ensures s[0] == '0' ==> n == 0 && |s| == 1
    ensures DigitsValue(s) == n
  {
    if n < 10 then
      [DigitChar(n)]
    else
      var prefix := NatToString(n / 10);
      var s := prefix + [DigitChar(n % 10)];
      assert s[..|s| - 1] == prefix;
      s
  }

  /** The part of s after an optional leading '+' or '-'. */
  function Magnitude(s: string): string {
    if |s| > 0 && (s[0] == '+' || s[0] == '-') then s[1..] else s
  }

  /** An optional '+' or '-' followed by one or more ASCII digits. */
  predicate IsNumeral(s: string) {
    |Magnitude(s)| > 0 && AllDigits(Magnitude(s))
  }

  /** The integer an optionally signed decimal numeral denotes. */
  function NumeralValue(s: string): int
    requires IsNumeral(s)
  {
    if s[0] == '-' then -(DigitsValue(Magnitude(s)) as int) else DigitsValue(Magnitude(s))
  }

  /** The decimal numeral of an integer, with a '-' when it is negative. */
  function IntToString(i: int): (s: string)
    ensures IsNumeral(s) && NumeralValue(s) == i
    ensures s[0] == '-' <==> i < 0
  {
    if i < 0 then
      var s := "-" + NatToString(-i);
      assert Magnitude(s) == NatToString(-i);
      s
    else
      NatToString(i)
  }
}

=== FILE: strconv.dfy ===
/**
 * Go's `strconv.Atoi` on a 64-bit platform, the only integer parser the relay
 * command uses. Both of its paths are modelled: the fast path for inputs
 * shorter than 19 characters, and the `ParseInt(s, 10, 0)` path for the rest,
 * whose digit loop gives up with a range error as soon as the value overflows.
 * The error result is not modelled, because the relay command discards it:
 * a syntax error yields 0 and a range error yields the clamped bound.
 */
module Strconv {
  import opened Decimal

  const MaxInt64: int := 0x7fff_ffff_ffff_ffff
  const MinInt64: int := -0x8000_0000_0000_0000
  const MaxUint64: int := 0xffff_ffff_ffff_ffff
  /** The smallest n for which n * 10 exceeds MaxUint64. */
  const Cutoff10: int := MaxUint64 / 10 + 1

  /** The value part of `ParseUint(s, 10, 64)`, with its error kind. */
  datatype UintResult = Parsed(n: nat) | SyntaxError | RangeError

  function Clamp64(v: int): int {
    if v > MaxInt64 then MaxInt64 else if v < MinInt64 then MinInt64 else v
  }

  /** The digit loop of `ParseUint` from position i, with n read so far. */
  function ScanUint(s: string, i: nat, n: nat): UintResult
    requires i <= |s|
    decreases |s| - i
  {
    if i == |s| then Parsed(n)
    else if !IsDigit(s[i]) then SyntaxError
    else if n >= Cutoff10 then RangeError
    else if n * 10 + DigitValue(s[i]) > MaxUint64 then RangeError
    else ScanUint(s, i + 1, n * 10 + DigitValue(s[i]))
  }

  function ParseUint64(s: string): UintResult {
    if s == "" then SyntaxError else ScanUint(s, 0, 0)
  }

  /** The value part of `ParseInt(s, 10, 64)`. */
  function ParseInt64(s: string): int {
    if s == "" then 0
    else
      var neg := s[0] == '-';
      match ParseUint64(Magnitude(s))
      case SyntaxError => 0
      case RangeError => if neg then MinInt64 else MaxInt64
      case Parsed(un) =>
        if !neg && un > MaxInt64 then MaxInt64
        else if neg && un > -MinInt64 then MinInt64
        else if neg then -(un as int)
        else un
  }

  /** The fast path of `Atoi`, taken for 1 to 18 characters. */
  function AtoiSmall(s: string): (i: int)
    requires 0 < |s| < 19
    ensures -(Pow10(18) as int) < i < Pow10(18)
  {
    var digits := Magnitude(s);
    if |digits| < 1 || !AllDigits(digits) then 0
    else
      DigitsValueBound(digits);
      Pow10Monotone(|digits|, 18);
      if s[0] == '-' then -(DigitsValue(digits) as int) else DigitsValue(digits)
  }

  /** The integer `Atoi` returns, whatever its error result. */
  function Atoi(s: string): (i: int)
    ensures MinInt64 <= i <= MaxInt64
  {
    if 0 < |s| < 19 then
      Pow10Of18();
      AtoiSmall(s)
    else
      ParseInt64(s)
  }

  /** A scan that ends in a value has read digits only. */
  lemma {:induction false} ScanParsedReadDigits(s: string, i: nat, n: nat)
    requires i <= |s|
    requires ScanUint(s, i, n).Parsed?
    ensures AllDigits(s[i..])
    decreases |s| - i
  {
    if i < |s| {
      ScanParsedReadDigits(s, i + 1, n * 10 + DigitValue(s[i]));
      assert forall k :: 1 <= k < |s[i..]| ==> s[i..][k] == s[i + 1..][k - 1];
    }
  }

  /** On a digit string the scan yields its value, or a range error past MaxUint64. */
  lemma {:induction false} ScanDigits(s: string, i: nat)
    requires AllDigits(s) && i <= |s|
    requires DigitsValue(s[..i]) <= MaxUint64
    ensures ScanUint(s, i, DigitsValue(s[..i]))
            == if DigitsValue(s) <= MaxUint64 then Parsed(DigitsValue(s)) else RangeError
    decreases |s| - i
  {
    if i == |s| {
      assert s[..i] == s;
    } else {
      var n := DigitsValue(s[..i]);
      var next := s[..i + 1];
      assert next[..i] == s[..i];
      assert DigitsValue(next) == n * 10 + DigitValue(s[i]);
      DigitsValuePrefix(s, i + 1);
      if DigitsValue(next) <= MaxUint64 {
        ScanDigits(s, i + 1);
      }
    }
  }

  /** A numeral is read as its value, clamped to the 64-bit range. */
  lemma AtoiNumeral(s: string)
    requires IsNumeral(s)
    ensures Atoi(s) == Clamp64(NumeralValue(s))
  {
    var m := Magnitude(s);
    if 0 < |s| < 19 {
      DigitsValueBound(m);
      Pow10Monotone(|m|, 18);
      Pow10Of18();
    } else {
      assert m[..0] == "";
      ScanDigits(m, 0);
    }
  }

  /**
   * Anything that is not a numeral is read as 0, except that a long input
   * whose leading digits exceed the unsigned 64-bit maximum before the first
   * stray character is read as a 64-bit bound: `MaxInt64`, or `MinInt64`
   * after a leading '-'.
   */
  lemma AtoiNonNumeral(s: string)
    requires !IsNumeral(s)
    ensures Atoi(s) == 0 || Atoi(s) == MaxInt64 || Atoi(s) == MinInt64
    ensures |s| < 19 ==> Atoi(s) == 0
  {
    if |s| >= 19 && Magnitude(s) != "" && ScanUint(Magnitude(s), 0, 0).Parsed? {
      assert Magnitude(s)[0..] == Magnitude(s);
      ScanParsedReadDigits(Magnitude(s), 0, 0);
    }
  }

  /** A range error in a prefix is a range error in the whole input. */
  lemma {:induction false} ScanRangeErrorExtends(p: string, s: string, i: nat, n: nat)
    requires i <= |p| <= |s| && p == s[..|p|]
    requires ScanUint(p, i, n) == RangeError
    ensures ScanUint(s, i, n) == RangeError
    decreases |p| - i
  {
    assert s[i] == p[i];
    if IsDigit(p[i]) && n < Cutoff10 && n * 10 + DigitValue(p[i]) <= MaxUint64 {
      ScanRangeErrorExtends(p, s, i + 1, n * 10 + DigitValue(p[i]));
    }
  }

  /** Twenty digits led by a nine, then anything: the scan overflows before reading past them. */
  lemma ScanOverflowsOnTwentyDigits(s: string)
    requires |s| >= 20 && AllDigits(s[..20]) && s[0] == '9'
    ensures ScanUint(s, 0, 0) == RangeError
  {
    var p := s[..20];
    assert p[..0] == "";
    DigitsValueLead(p);
    Pow10Of18();
    assert Pow10(19) == 10 * Pow10(18);
    ScanDigits(p, 0);
    ScanRangeErrorExtends(p, s, 0, 0);
  }

  /** A long input whose digit scan overflows is read as the bound on the side of its sign. */
  lemma AtoiRangeError(s: string)
    requires |s| >= 19 && |Magnitude(s)| > 0
    requires ScanUint(Magnitude(s), 0, 0) == RangeError
    ensures Atoi(s) == if s[0] == '-' then MinInt64 else MaxInt64
  {
  }

  /** An example of the overflow case: twenty nines and a stray letter. */
  lemma AtoiOverflowBeforeStrayCharacter()
    ensures !IsNumeral("99999999999999999999x")
    ensures Atoi("99999999999999999999x") == MaxInt64
  {
    var s := "99999999999999999999x";
    assert !IsDigit(s[20]);
    assert s[..20] == "99999999999999999999";
    ScanOverflowsOnTwentyDigits(s);
    AtoiRangeError(s);
  }

  /** The same after a '-': the bound is then `MinInt64`. */
  lemma AtoiNegativeOverflowBeforeStrayCharacter()
    ensures !IsNumeral("-99999999999999999999x")
    ensures Atoi("-99999999999999999999x") == MinInt64
  {
    var t := "-99999999999999999999x";
    var s := t[1..];
    assert s == "99999999999999999999x";
    assert Magnitude(t) == s;
    assert !IsDigit(s[20]);
    assert s[..20] == "99999999999999999999";
    ScanOverflowsOnTwentyDigits(s);
    AtoiRangeError(t);
  }

  /** A scan that reads a whole prefix continues from the prefix's value. */
  lemma {:induction false} ScanParsedPrefix(p: string, s: string, i: nat, n: nat)
    requires i <= |p| <= |s| && p == s[..|p|]
    requires ScanUint(p, i, n).Parsed?
    ensures ScanUint(s, i, n) == ScanUint(s, |p|, ScanUint(p, i, n).n)
    decreases |p| - i
  {
    if i < |p| {
      assert s[i] == p[i];
      ScanParsedPrefix(p, s, i + 1, n * 10 + DigitValue(p[i]));
    }
  }

  /**
   * Nineteen nines exceed `MaxInt64` but not the unsigned maximum, so the scan
   * reaches the stray letter and the input is read as 0.
   */
  lemma AtoiStrayCharacterBeforeOverflow()
    ensures !IsNumeral("9999999999999999999x")
    ensures Atoi("9999999999999999999x") == 0
  {
    var s := "9999999999999999999x";
    var p := s[..19];
    assert p == "9999999999999999999";
    assert !IsDigit(s[19]);
    assert AllDigits(p);
    assert p[..0] == "";
    DigitsValueBound(p);
    Pow10Of18();
    assert Pow10(19) == 10 * Pow10(18);
    ScanDigits(p, 0);
    ScanParsedPrefix(p, s, 0, 0);
  }

  /** `Atoi` inverts the decimal rendering of every 64-bit integer. */
  lemma AtoiIntToString(i: int)
    requires MinInt64 <= i <= MaxInt64
    ensures Atoi(IntToString(i)) == i
  {
    AtoiNumeral(IntToString(i));
  }
}

=== FILE: strings.dfy ===
/**
 * Go's `strings.Join`, which the relay command uses twice, and `strings.Split`
 * on a single-character separator, the reading a line-oriented client applies
 * to a joined text.
 */
module Strings {

  function TotalLength(parts: seq<string>): nat {
    if |parts| == 0 then 0 else |parts[0]| + TotalLength(parts[1..])
  }

  /** The parts in order with sep between neighbours: nothing before the first or after the last. */
  function Join(parts: seq<string>, sep: string): (r: string)
    ensures |parts| == 0 ==> r == ""
    ensures |parts| > 0 ==> |r| == TotalLength(parts) + (|parts| - 1) * |sep|
    ensures |parts| > 0 ==> r[..|parts[0]|] == parts[0]
  {
    if |parts| == 0 then ""
    else if |parts| == 1 then parts[0]
    else parts[0] + sep + Join(parts[1..], sep)
  }

  /** The position of the first c in s. */
  function IndexOf(s: string, c: char): (k: nat)
    requires c in s
    ensures k < |s| && s[k] == c && c !in s[..k]
  {
    if s[0] == c then 0
    else
      var k := 1 + IndexOf(s[1..], c);
      assert s[..k] == [s[0]] + s[1..][..k - 1];
      k
  }

  /** The pieces of s between occurrences of c, as `strings.Split(s, string(c))`. */
  function Split(s: string, c: char): (parts: seq<string>)
    ensures |parts| >= 1
    ensures forall k :: 0 <= k < |parts| ==> c !in parts[k]
    ensures Join(parts, [c]) == s
    decreases |s|
  {
    if c in s then
      var k := IndexOf(s, c);
      var rest := Split(s[k + 1..], c);
      assert ([s[..k]] + rest)[1..] == rest;
      assert s == s[..k] + [c] + s[k + 1..];
      [s[..k]] + rest
    else
      [s]
  }

  lemma IndexOfFirst(p: string, c: char, t: string)
    requires c !in p
    ensures c in p + [c] + t && IndexOf(p + [c] + t, c) == |p|
  {
    var s := p + [c] + t;
    assert s[|p|] == c;
    assert s[..|p|] == p;
  }

  /** Splitting at the first separator peels off the piece before it. */
  lemma SplitFirst(p: string, c: char, t: string)
    requires c !in p
    ensures Split(p + [c] + t, c) == [p] + Split(t, c)
  {
    var s := p + [c] + t;
    IndexOfFirst(p, c, t);
    assert s[..|p|] == p;
    assert s[|p| + 1..] == t;
  }

  /** Splitting a join on a separator no part contains gives back the parts. */
  lemma {:induction false} SplitJoin(parts: seq<string>, c: char)
    requires |parts| >= 1
    requires forall k :: 0 <= k < |parts| ==> c !in parts[k]
    ensures Split(Join(parts, [c]), c) == parts
  {
    if |parts| > 1 {
      var t := Join(parts[1..], [c]);
      SplitFirst(parts[0], c, t);
      SplitJoin(parts[1..], c);
      assert parts == [parts[0]] + parts[1..];
    }
  }
}

=== FILE: wrappers.dfy ===
/** The optional-value datatype used by the model. */
module Wrappers {

  /** `Some(v)` for a present value, `None` for an absent one. */
  datatype Option<+T> = None | Some(value: T)
}
